=== FILE: README.md ===
# iot-stats: store adapter and request decisions in Dafny

This project models the core of iot-stats, a small backend where IoT devices
register themselves and report errors through an API-key-gated API, and an
operator lists devices with their error history through a session-cookie-gated
web view. Two pieces are modelled:

- the MongoDB data-store adapter (`service/mongo_service.go`) as pure
  transitions and queries on an immutable store of its four collections
  (`devices`, `errors`, `cookies`, `users`);
- the request decision logic of the handlers and gates (`server/api.go`,
  `server/web.go`, `server/login.go`) as pure functions from
  (request, store, clock) to (response, store).

Modules, one per source component:

| module | file | models |
|---|---|---|
| `Outcomes` | outcomes.dfy | `Option` / `Result` helpers |
| `Model` | model.dfy | the records of `model/model.go` (`ObjectId` is a `nat`, time is integer seconds) |
| `Strconv` | strconv.dfy | Go's `strconv.Atoi`, used for the `skip` / `limit` path segments |
| `SecureCookie` | securecookie.dfy | the signed-cookie codec as a symbolic codec |
| `MongoService` | mongo_service.dfy | the store and every adapter operation |
| `Gin` | gin.dfy | the response a gin context accumulates |
| `Server` | server.dfy | configuration, the shared `setSession`, `pleaseAuth`, `internalError` |
| `Api` | api.dfy | `checkApiKey`, `errorReport`, `registerDevice` and the `/api` routes |
| `Web` | web.dfy | `checkSession`, `getDevices` and the `/web/list` route |
| `Login` | login.dfy | `loginHandler` |
| `Scenarios` | scenarios.dfy | requests in sequence: login, then web requests |

How the model represents the program:

- **Responses.** A response records the status committed by the first write,
  every body written (a later `c.JSON` appends its body, it does not replace the
  status), the cookies set while the headers were still unwritten, and the
  gin "aborted" flag. `Abort` does not stop the running handler, so the model
  keeps computing after an error write, as the Go code does.
- **Panics.** A nil dereference after an error write is recovered by
  `gin.Recovery`, which calls `AbortWithStatus(500)`; the model's `Recover`
  keeps a status already committed and otherwise commits 500.
- **JSON bodies.** A decoded body is `Parsed(v)`, `Null` (the literal `null`),
  or `Malformed(partial)`, where `partial` is whatever the decoder filled in
  before failing. A struct target keeps its zero value on `null`; the
  `*DeviceErrorDto` target of `errorReport` becomes nil, and `RegisterError`
  panics on it.
- **Cookie codec.** The one codec built at start-up from two random keys is the
  `keys` field of the server `Config`, passed to every handler. A sealed token
  records the key pair, the cookie name, the map and the issuing time. `Decode`
  accepts only tokens sealed by the same key pair under the same name, and
  then rejects them if they are older than securecookie's default maximum age
  of 30 days. Round trip and key scoping are proved lemmas, not assumptions.
- **Hash.** `utils.GenerateHash` is a function-typed parameter
  `hash: string -> string`: deterministic and otherwise uninterpreted.
- **Time.** An integer clock in seconds. A session lasts `expiration` hours,
  computed as Go computes `time.Duration(exp) * time.Hour`: in int64
  nanoseconds, which wrap for lifetimes above 2562047 hours; the clock then
  moves by that duration rounded down to whole seconds.
- **Order.** The store keeps devices and errors in insertion order. The listing
  pipeline sees that order, and `Find(...).One` and `Upsert` pick the first
  match.

Behaviours reproduced as the code has them:

- The listing pipeline runs `$limit` before `$skip`. The page is therefore the
  joined devices at positions `skip .. min(limit, n) - 1`, not "skip, then take
  `limit`".
- `limit` must be a positive number; a negative one, or one above 2^42 (the
  longest `[]DeviceDto` of 64-byte elements that Go's 2^48-byte allocation
  ceiling on linux/amd64 admits from Go 1.11 on), panics in `make` before the query runs.
  MongoDB rejects a `$limit` of 0 and a negative `$skip`. An out-of-range
  `limit` is answered 400 and its clamped value then panics in `make`.
- In `getDevices` the `skip` parse error is overwritten by the `limit` parse.
  Only a bad `limit` is answered 400. A `skip` that Atoi rejects with a syntax
  error is read as 0; one whose digits overflow before any non-digit is read
  as the clamped bound, like an out-of-range number.
- Handlers do not return after writing an error. A failed error report is
  answered 500 "database error" followed by "Error registered". A malformed
  registration body is answered 500, yet the partly decoded number is still
  registered.
- An expired session is answered 401, but `setSession` still runs and extends
  the stored expiry.
- The web gate's refreshed cookie stores the login under `"name"`, while the
  gate reads `"login"`. The request after a refresh reads login `""` and, unless
  `""` has a stored expiry, ends in a 500.
- A login whose lookup fails is answered 500 "database error", not 401.

## Model

| member | source | states |
|---|---|---|
| `Strconv.Atoi` | server/web.go:70-71 | Atoi reports no error exactly for an optionally signed, non-empty digit string whose value fits in int64, and then returns that value. A syntax error returns 0. A range error returns the bound on the side of the sign. |
| `SecureCookie.Decode` | server/web.go:30 | A token decodes exactly when it was sealed by the same key pair under the same name at most 30 days ago; what it yields is the map that was sealed |
| `SecureCookie.Encode` | server/login.go:56 | The token the codec issues decodes, under the same name, to the encoded map for exactly `MaxAge` seconds after issue, and fails afterwards |
| `SecureCookie.RoundTrip` | server/server_test.go:160-165 | Decoding what the codec encoded gives back the same map, for as long as the maximum age allows |
| `SecureCookie.KeyScoping` | server/login.go:48-50 | A token sealed under one key pair never decodes under another |
| `SecureCookie.NameScoping` | server/web.go:29-30 | A token sealed under one cookie name never decodes under another name, whatever the keys and times |
| `MongoService.GetDeviceByNumber` | service/mongo_service.go:123-131 | Finds a device exactly when one has that number, and returns the first such device in store order; otherwise NotFound |
| `MongoService.RegisterDevice` | service/mongo_service.go:94-103 | Upsert keyed by device number: with a match, only the first matching device may change and it keeps its id and number; without one, exactly one device with a fresh id is appended. Other collections are untouched, and a later find by number sees the new date. |
| `MongoService.RegisterDeviceKeepsNumberUnique` | service/mongo_service.go:97-99 | Registration never adds a second device with the same number; a new number ends up on exactly one device |
| `MongoService.RegisterTwice` | service/mongo_service.go:94-103 | A second registration of the same number leaves the device count as the first left it, and the errors, cookies and users collections as they were |
| `MongoService.RegisterError` | service/mongo_service.go:105-121 | Fails with NotFound exactly when no device has the number, and changes nothing then. Otherwise it appends exactly one error that copies the name and number, is stamped with the clock, and links to the found device's id. |
| `MongoService.RegisterErrorShowsInListing` | service/mongo_service.go:110-117 | After a successful report, the listing shows the new error at the end of its owner's errors; every other device's errors are unchanged |
| `MongoService.ErrorsOf` | service/mongo_service.go:74-75 | The `$lookup` join: a device's listed errors are exactly the error records whose device id is that device's id, and never more than the records |
| `MongoService.ErrorsOfAppend` | service/mongo_service.go:74-75 | Appending an error record extends the joined list of the device it points at by that record, at the end, and leaves every other device's list as it was |
| `MongoService.ErrorsOfCount` | service/mongo_service.go:74-75 | A device's joined list has exactly one entry per error record pointing at it, repeated records included |
| `MongoService.GetAllDevices` | service/mongo_service.go:68-83 | Negative limit or one above 2^42: panic. Zero limit or negative skip: rejected. Otherwise the page has max(0, min(limit, n) - skip) entries; entry i is device skip+i joined with its errors. |
| `MongoService.GetDevicesCount` | service/mongo_service.go:85-92 | The count is the number of device documents; in a valid store it is the number of distinct device ids |
| `MongoService.DistinctIdsCount` | service/mongo_service.go:85-92 | Devices with pairwise distinct ids have as many distinct ids as devices |
| `MongoService.FullListingMatchesCount` | service/mongo_service.go:85-92 | The device count equals the length of a first page whose limit covers the collection, and that page holds every device |
| `MongoService.GetCookieExp` | service/mongo_service.go:133-140 | Succeeds exactly for a login that has a stored expiry, else NotFound |
| `MongoService.SetCookieExp` | service/mongo_service.go:142-150 | After the upsert, the login's expiry reads back as the new value. Every other login's expiry, and the other collections, are unchanged. |
| `MongoService.GetCreds` | service/mongo_service.go:162-169 | Succeeds exactly for a stored login and returns credentials carrying that login; else NotFound |
| `MongoService.SetCreds` | service/mongo_service.go:152-160 | After the upsert, reading the login back gives the new credentials. Every other login, and the other collections, are unchanged. |
| `MongoService.RegisterDevicePreservesValid` | service/mongo_service.go:94-103 | Registration keeps device ids distinct and below the next fresh id, and leaves no error without a device |
| `MongoService.RegisterErrorPreservesValid` | service/mongo_service.go:105-121 | A successful report links to a stored device, so no orphan error appears |
| `Server.ExpiresAt` | server/login.go:57-62 | While `expiration` hours fit in int64 nanoseconds, the expiry is now + expiration * 3600 seconds; it always lies within the int64 nanosecond range of now |
| `Server.HourOverflowExpiresInPast` | server/web.go:56-60 | A lifetime of 2562048 hours wraps negative, so the expiry lies about 292 years before now |
| `Server.SetSession` | server/web.go:51-66 | Stores the login's expiry as `ExpiresAt(now)`, leaving everything else in the store alone. Before any write, it adds one `session` cookie with path `/` and that expiry, decoding to `{field: login}`; after a write, the cookie is lost. |
| `Server.PleaseAuth` | server/api.go:75-81 | Aborts, appends `{"error": "Access denied"}`, and sets 401 unless a status was already written |
| `Server.InternalError` | server/web.go:96-100 | Aborts, appends `{"error": msg}`, and sets 500 unless a status was already written |
| `Api.CheckApiKey` | server/api.go:29-39 | The chain continues exactly when the header equals a non-empty configured key, with nothing written. A missing, empty or wrong key gets 401 "Access denied" and aborts. |
| `Api.ErrorReport` | server/api.go:41-56 | A null body panics into a 500 and changes nothing. A malformed body is answered 500 "marshalling error" and its partial DTO is still reported. A parsed DTO for a known device gets 200 "Error registered" and nothing else. |
| `Api.Report` | server/api.go:51-55 | A successful RegisterError leaves its store and appends "Error registered". A failed one keeps the store, aborts, and appends "database error" then "Error registered"; the status is 500 unless one was already written. |
| `Api.RegisterDeviceHandler` | server/api.go:58-73 | The store is RegisterDevice of the decoded number at the current time. A well-formed body is answered 200 "Device registered"; a malformed one 500, with the registration still done. |
| `Api.ServeRegister` | server/server.go:41-42 | Without an admitted key, a registration is a bare 401 and the store is unchanged; with one, the handler runs |
| `Api.WrongKeyRegistersNothing` | server/api.go:31-35 | A registration whose key is missing, empty or wrong is answered 401 with only "Access denied", whatever its body, and the store is unchanged |
| `Api.ServeErrorReport` | server/server.go:41-43 | Without an admitted key, an error report is a bare 401 and the store is unchanged; with one, the handler runs |
| `Web.CheckSession` | server/web.go:27-49 | No cookie or an undecodable one: 401, store unchanged. An unknown login: 500. A known login always has its expiry refreshed. The chain continues exactly when the stored expiry is not before now, and then carries one refreshed cookie encoding `{"name": login}`. An expired session gets 401 and no cookie. |
| `Web.GetDevices` | server/web.go:68-94 | Answered 400 exactly when `limit` fails to parse. A parsed limit gives 200 with the store's page and the device count, or 500 when the store refuses the pipeline or `make` panics on a negative or over-long limit. |
| `Web.ServeList` | server/server.go:46-47 | The listing runs only behind a live session, on the store and response the gate left |
| `Web.SkipSyntaxErrorReadsAsZero` | server/web.go:70-76 | A `skip` that Atoi rejects with a syntax error gives the same response as skip "0" |
| `Web.ListTwoDevices` | server/server_test.go:141-150 | Listing `/0/10` over two devices without errors gives 200, both devices with empty error lists, and total 2 |
| `Web.RefreshedCookieReadsEmptyLogin` | server/web.go:52-54 | The gate reads the login of a refreshed cookie as "" |
| `Login.LoginHandler` | server/login.go:24-46 | Authentic credentials write the expiry `ExpiresAt(now)`; if the body was well-formed they get 200 `{"message":"ok"}` and one cookie decoding to `{"login": login}` with that expiry. An unknown login gets 500 "database error". Known but not authentic credentials get 401 (500 after a malformed body), with no cookie and no store change. |
| `Login.LoginTestIsAuthenticity` | server/login.go:40 | The handler's test on stored hash and stored login holds exactly when the store has the login with the hash of the submitted password |
| `Scenarios.LoginCookiePassesGate` | server/web.go:29-42 | A cookie issued by login passes the web gate, under the same process codec, until its expiry and the codec's maximum age; the gate refreshes the stored expiry |
| `Scenarios.RefreshedCookieFailsNextRequest` | server/web.go:31-36 | The request after a refresh reads login "" and, when "" has no stored expiry, ends in 500 |
| `Scenarios.RestartRefusesOldCookies` | server/login.go:48-50 | Under a new key pair, as after a restart, every token the old codec would decode, whether a login cookie or a refreshed one, is refused with 401 and the store is unchanged |
| `Scenarios.RestartRefusesLoginCookie` | server/login.go:48-50 | In particular the cookie a successful login issued is refused after a restart |

## Left out

- Process start-up, configuration reading, gin routing tables, TLS and static
  file serving (`main.go`, `config/config.go`, most of `server/server.go`):
  I/O and plumbing. The routes are modelled only as "gate, then handler".
- `Connect` and `Config.GetAddr` of the store: a network dial and address
  formatting.
- The bootstrap that seeds the admin credentials: it is one `SetCreds` call,
  which is modelled.
- Failures of the store's transport: store calls fail only for data reasons
  (no match, a rejected pipeline, the slice panic). So the "register err"
  branch of `registerDevice` and the count-failure branch of `getDevices`
  cannot be reached in the model.
- The SHA-256 / base64 digest of `utils.GenerateHash`: it is a
  parameter of the login handler.
- The cryptography of securecookie: tokens are symbolic, so the model does not
  capture that a client cannot forge one. Encode's error when the encoded
  value exceeds 4096 bytes is not modelled, so `setSession` always
  issues its cookie.
- JSON marshalling failures of the listing (e.g. a year outside 0..9999): the
  listing body always marshals.
- MongoService.GetAllDevices: a limit at or below 2^42 that still exceeds the
  memory available makes `make` fail with a fatal out-of-memory error that
  kills the process and cannot be recovered; the model lists such a page as
  usual, since available memory is not part of the model. The 2^42 bound
  assumes Go 1.11 or later; earlier toolchains capped the linux/amd64 heap at
  2^39 - 1 bytes, so `make` panicked from about 2^33 elements.
- Logging and the `Content-Type` header the gates add: these do not affect
  any decision.
- Sub-second time: the clock counts whole seconds, so within the second in
  which a session expires the model cannot order a request against the
  stored expiry (kept to the millisecond) the way `checkSession`'s `Sub`
  does (server/web.go:37); such a request passes the gate in the model even
  when it comes after the expiry.
- Concurrent requests and last-write-wins races on the store: each request is
  one atomic step.
- The `Session` and `Cookie` structs of `model/model.go`: the expiry
  collection is a map from login to expiry.

=== FILE: api.dfy ===
/**
 * The device-facing API of server/api.go: the API-key gate and the two
 * ingestion handlers. Handlers do not return after writing an error, so a
 * failing request still runs to the final success write; its status stays
 * the one written first.
 */
module Api {
  import opened Outcomes
  import opened Model
  import opened MongoService
  import opened Gin
  import opened Server

  /** The body of `POST /api/register`. */
  datatype PostDevice = PostDevice(deviceNumber: string)

  /** An API request: the `Api-Key` header, if any, and the decoded JSON body. */
  datatype ApiRequest<T> = ApiRequest(apiKey: Option<string>, body: JsonBody<T>)

  /** The gate passed: nothing written, chain not aborted. */
  predicate Admitted(cfg: Config, header: Option<string>) {
    header == Some(cfg.apiKey) && cfg.apiKey != ""
  }

  /**
   * checkApiKey: an empty or missing header (`Header.Get` yields "" for
   * both) and a header other than the configured key are answered 401 and
   * abort the chain; only the configured key reaches the handler.
   */
  function CheckApiKey(cfg: Config, header: Option<string>): (r: Response)
    ensures !r.aborted <==> Admitted(cfg, header)
    ensures r.aborted ==> StatusCode(r) == StatusUnauthorized && r.bodies == [Error("Access denied")] && r.cookies == []
    ensures !r.aborted ==> r == Blank
  {
    var ak := header.GetOr("");
    if ak == "" then PleaseAuth(Blank)
    else if ak != cfg.apiKey then PleaseAuth(Blank)
    else Blank
  }

  /**
   * errorReport. A `null` body leaves the DTO pointer nil, so RegisterError
   * panics on it and gin recovers with 500. Otherwise the decoded (or
   * partly decoded) DTO goes to RegisterError, and "Error registered" is
   * written whether or not that succeeded.
   */
  function ErrorReport(body: JsonBody<DeviceErrorDto>, st: Store, now: Time): (s: Served)
    ensures body.Null? ==>
              && StatusCode(s.resp) == StatusInternalServerError && s.resp.aborted
              && s.resp.bodies == [] && s.store == st
    ensures body.Malformed? ==>
              && StatusCode(s.resp) == StatusInternalServerError && s.resp.aborted
              && |s.resp.bodies| > 0 && s.resp.bodies[0] == Error("marshalling error")
    ensures body.Malformed? ==> s == Report(InternalError(Blank, "marshalling error"), body.partial, st, now)
    ensures body.Parsed? ==> s == Report(Blank, body.value, st, now)
    ensures body.Parsed? && HasDevice(st.devices, body.value.deviceNumber) ==>
              StatusCode(s.resp) == StatusOK && s.resp.bodies == [Message("Error registered")] && !s.resp.aborted
  {
    if body.Null? then Served(Recover(Blank), st)
    else if body.Malformed? then Report(InternalError(Blank, "marshalling error"), body.partial, st, now)
    else Report(Blank, body.value, st, now)
  }

  /**
   * The rest of errorReport once a DTO is in hand: the store RegisterError
   * produced and a final "Error registered", or, when RegisterError
   * failed, the old store and "database error" written before
   * "Error registered", with 500 unless a status was already written.
   */
  function Report(r: Response, de: DeviceErrorDto, st: Store, now: Time): (s: Served)
    ensures s.resp.cookies == r.cookies
    ensures RegisterError(st, de, now).Success? ==>
              && s.store == RegisterError(st, de, now).value
              && s.resp.bodies == r.bodies + [Message("Error registered")]
              && StatusCode(s.resp) == StatusCode(r) && s.resp.aborted == r.aborted
    ensures RegisterError(st, de, now).Failure? ==>
              && s.store == st && s.resp.aborted
              && s.resp.bodies == r.bodies + [Error("database error"), Message("Error registered")]
              && StatusCode(s.resp) == (if r.status.None? then StatusInternalServerError else StatusCode(r))
  {
    var stored := RegisterError(st, de, now);
    if stored.Failure? then Served(Write(InternalError(r, "database error"), StatusOK, Message("Error registered")), st)
    else Served(Write(r, StatusOK, Message("Error registered")), stored.value)
  }

  /**
   * registerDevice: upserts the decoded device number with the current
   * time, then writes "Device registered". A malformed body is answered
   * 500 but the partly decoded number is registered all the same.
   */
  function RegisterDeviceHandler(body: JsonBody<PostDevice>, st: Store, now: Time): (s: Served)
    ensures s.store == RegisterDevice(st, body.Into(PostDevice("")).deviceNumber, now)
    ensures body.Malformed? ==>
              && StatusCode(s.resp) == StatusInternalServerError && s.resp.aborted
              && s.resp.bodies == [Error("marshalling error"), Message("Device registered")]
    ensures !body.Malformed? ==>
              && StatusCode(s.resp) == StatusOK && !s.resp.aborted
              && s.resp.bodies == [Message("Device registered")]
  {
    var r := if body.Malformed? then InternalError(Blank, "marshalling error") else Blank;
    var post := body.Into(PostDevice(""));
    Served(Write(r, StatusOK, Message("Device registered")), RegisterDevice(st, post.deviceNumber, now))
  }

  /** `POST /api/register` behind the API-key gate. */
  function ServeRegister(cfg: Config, req: ApiRequest<PostDevice>, st: Store, now: Time): (s: Served)
    ensures !Admitted(cfg, req.apiKey) ==> s == Served(PleaseAuth(Blank), st)
    ensures Admitted(cfg, req.apiKey) ==> s == RegisterDeviceHandler(req.body, st, now)
  {
    var gate := CheckApiKey(cfg, req.apiKey);
    if gate.aborted then Served(gate, st) else RegisterDeviceHandler(req.body, st, now)
  }

  /** `POST /api/error` behind the API-key gate. */
  function ServeErrorReport(cfg: Config, req: ApiRequest<DeviceErrorDto>, st: Store, now: Time): (s: Served)
    ensures !Admitted(cfg, req.apiKey) ==> s == Served(PleaseAuth(Blank), st)
    ensures Admitted(cfg, req.apiKey) ==> s == ErrorReport(req.body, st, now)
  {
    var gate := CheckApiKey(cfg, req.apiKey);
    if gate.aborted then Served(gate, st) else ErrorReport(req.body, st, now)
  }

  /** A registration without the right key is refused whatever its body, and changes nothing. */
  lemma WrongKeyRegistersNothing(cfg: Config, req: ApiRequest<PostDevice>, st: Store, now: Time)
    requires req.apiKey != Some(cfg.apiKey) || cfg.apiKey == ""
    ensures var s := ServeRegister(cfg, req, st, now);
      StatusCode(s.resp) == StatusUnauthorized && s.store == st && s.resp.bodies == [Error("Access denied")]
  {
  }
}

=== FILE: gin.dfy ===
/**
 * The slice of gin's request context the handlers use, as a value. A
 * response records the status committed by the first write, every body
 * written (later writes append, they do not replace), the cookies set
 * while the headers were still unwritten, and whether the chain was
 * aborted. Aborting does not stop the current handler; it only stops the
 * handlers after it.
 */
module Gin {
  import opened Outcomes
  import opened Model
  import opened Strconv
  import opened SecureCookie

  const StatusOK := 200
  const StatusBadRequest := 400
  const StatusUnauthorized := 401
  const StatusInternalServerError := 500

  /**
   * The result of `json.NewDecoder(body).Decode(&v)`: a decoded value; the
   * literal `null`; or a decode error, after which `v` holds whatever the
   * decoder filled in before failing.
   */
  datatype JsonBody<T> = Parsed(value: T) | Null | Malformed(partial: T) {

    /** The value a struct target holds afterwards; `null` leaves it at its zero value. */
    function Into(zero: T): T {
      match this
      case Parsed(v) => v
      case Null => zero
      case Malformed(p) => p
    }
  }

  /** A response body, by the JSON object it carries. */
  datatype Body =
    | Message(message: string)
    | Error(error: string)
    | NumError(input: string, kind: NumErrorKind)
    | DeviceList(list: Devices)

  datatype HttpCookie = HttpCookie(name: string, value: Token, path: string, expires: Time)

  datatype Response = Response(status: Option<int>, bodies: seq<Body>, cookies: seq<HttpCookie>, aborted: bool)

  /** A context before any handler has run. */
  const Blank := Response(None, [], [], false)

  /** The status the client receives; gin sends 200 when nothing set one. */
  function StatusCode(r: Response): int {
    r.status.GetOr(StatusOK)
  }

  /** `c.JSON` / `c.String`: the first write commits the status; every write appends its body. */
  function Write(r: Response, code: int, body: Body): Response {
    r.(status := if r.status.None? then Some(code) else r.status, bodies := r.bodies + [body])
  }

  /**
   * `c.Status` as the handlers use it: as their last write, or through
   * `AbortWithStatus`, which commits the headers at once. So the model
   * commits the status here unless one is already committed.
   */
  function Status(r: Response, code: int): Response {
    r.(status := if r.status.None? then Some(code) else r.status)
  }

  /** `http.SetCookie`: adds a Set-Cookie header, which is lost once the headers are written. */
  function SetCookie(r: Response, c: HttpCookie): Response {
    if r.status.None? then r.(cookies := r.cookies + [c]) else r
  }

  function Abort(r: Response): Response {
    r.(aborted := true)
  }

  /** gin.Recovery after a panic: `AbortWithStatus(500)`, which keeps a status already committed. */
  function Recover(r: Response): Response {
    Abort(Status(r, StatusInternalServerError))
  }
}

=== FILE: login.dfy ===
/**
 * The login handler of server/login.go. The password hash (utils.GenerateHash)
 * is a parameter: any deterministic function from password to hash.
 */
module Login {
  import opened Outcomes
  import opened Model
  import opened SecureCookie
  import opened MongoService
  import opened Gin
  import opened Server

  /** The credentials a login body carries; `null` leaves them empty. */
  function Submitted(body: JsonBody<Credentials>): Credentials {
    body.Into(Credentials("", ""))
  }

  /** The store holds this login with the hash of this password. */
  predicate Authentic(st: Store, hash: string -> string, crds: Credentials) {
    crds.login in st.users && st.users[crds.login] == hash(crds.password)
  }

  /**
   * loginHandler. Looks the submitted login up; a failed lookup is a 500
   * after which the nil credentials are dereferenced and gin recovers. A
   * stored hash equal to the hash of the submitted password, under the
   * submitted login, issues a session (cookie with `"login"`, stored
   * expiry) and answers `{"message": "ok"}`; anything else is a bare 401.
   */
  function LoginHandler(cfg: Config, hash: string -> string, body: JsonBody<Credentials>, st: Store, now: Time): (s: Served)
    ensures Authentic(st, hash, Submitted(body)) ==>
              s.store == SetCookieExp(st, Submitted(body).login, ExpiresAt(cfg, now))
    ensures !Authentic(st, hash, Submitted(body)) ==> s.store == st && s.resp.cookies == []
    ensures Authentic(st, hash, Submitted(body)) && !body.Malformed? ==>
              && StatusCode(s.resp) == StatusOK && s.resp.bodies == [Message("ok")] && !s.resp.aborted
              && |s.resp.cookies| == 1 && s.resp.cookies[0].expires == ExpiresAt(cfg, now)
              && Decode(cfg.keys, SessionCookie, s.resp.cookies[0].value, now)
                 == Success(map["login" := Submitted(body).login])
    ensures Submitted(body).login !in st.users ==>
              && StatusCode(s.resp) == StatusInternalServerError && s.resp.aborted
              && |s.resp.bodies| > 0 && s.resp.bodies[|s.resp.bodies| - 1] == Error("database error")
    ensures Submitted(body).login in st.users && !Authentic(st, hash, Submitted(body)) ==>
              && StatusCode(s.resp) == (if body.Malformed? then StatusInternalServerError else StatusUnauthorized)
              && s.resp.bodies == (if body.Malformed? then [Error("marshalling error")] else [])
    ensures body.Malformed? ==> StatusCode(s.resp) == StatusInternalServerError && s.resp.cookies == []
  {
    var r := if body.Malformed? then InternalError(Blank, "marshalling error") else Blank;
    var crds := Submitted(body);
    match GetCreds(st, crds.login)
    case Failure(_) => Served(Recover(InternalError(r, "database error")), st)
    case Success(creds) =>
      if creds.password == hash(crds.password) && creds.login == crds.login then
        var issued := SetSession(cfg, "login", crds.login, r, st, now);
        Served(Write(issued.resp, StatusOK, Message("ok")), issued.store)
      else
        Served(Status(r, StatusUnauthorized), st)
  }

  /**
   * The handler's test compares both the stored hash and the stored login;
   * because credentials are found by login, it holds exactly for authentic
   * credentials.
   */
  lemma LoginTestIsAuthenticity(st: Store, hash: string -> string, crds: Credentials)
    ensures (GetCreds(st, crds.login).Success?
             && GetCreds(st, crds.login).value.password == hash(crds.password)
             && GetCreds(st, crds.login).value.login == crds.login)
            <==> Authentic(st, hash, crds)
  {
  }
}

=== FILE: model.dfy ===
/**
 * The records of model/model.go. Store identities (`bson.ObjectId`) are
 * abstract natural numbers and instants are whole seconds on an integer clock.
 */
module Model {
  import opened Outcomes

  type ObjectId = nat

  /** Seconds on the server's clock. */
  type Time = int

  /** A document of the `devices` collection. */
  datatype Device = Device(id: ObjectId, deviceNumber: string, registerDate: Time)

  /** The error a device reports, and the shape an error takes in a listing. */
  datatype DeviceErrorDto = DeviceErrorDto(errorName: string, deviceNumber: string)

  /** A document of the `errors` collection, linked to its device by `deviceId`. */
  datatype DeviceError = DeviceError(errorName: string, deviceNumber: string, date: Time, deviceId: ObjectId)

  /** A device joined with its errors, as the device listing returns it. */
  datatype DeviceDto = DeviceDto(deviceNumber: string, registerDate: Time, errors: seq<DeviceErrorDto>)

  /** The listing body: `devices` is `None` when the listing query failed (JSON `null`). */
  datatype Devices = Devices(devices: Option<seq<DeviceDto>>, total: int)

  /** A login and its password hash, as stored in the `users` collection. */
  datatype Credentials = Credentials(login: string, password: string)
}

=== FILE: mongo_service.dfy ===
/**
 * The data-store adapter of service/mongo_service.go over an in-memory
 * store of its four collections. Devices and errors keep the store's
 * natural (insertion) order, which is the order the listing pipeline sees;
 * cookie expiries and credentials are keyed by login, the field their
 * upserts and finds match on.
 */
module MongoService {
  import opened Outcomes
  import opened Model

  /**
   * Why a store call fails: no document matched a find; MongoDB refused the
   * aggregation pipeline; or the Go code panicked building the result slice.
   */
  datatype StoreError = NotFound | PipelineRejected | SlicePanic

  /** The `devices`, `errors`, `cookies` and `users` collections, plus the next fresh ObjectId. */
  datatype Store = Store(
    devices: seq<Device>,
    errors: seq<DeviceError>,
    cookies: map<string, Time>,
    users: map<string, string>,
    nextId: ObjectId)

  /** The identities of the stored devices. */
  function DeviceIds(st: Store): set<ObjectId> {
    set i | 0 <= i < |st.devices| :: st.devices[i].id
  }

  /**
   * What the store guarantees by construction: identities are distinct and
   * below the next fresh one, and every error points at a stored device.
   */
  predicate Valid(st: Store) {
    && (forall i :: 0 <= i < |st.devices| ==> st.devices[i].id < st.nextId)
    && (forall i, j :: 0 <= i < j < |st.devices| ==> st.devices[i].id != st.devices[j].id)
    && (forall k :: 0 <= k < |st.errors| ==> st.errors[k].deviceId in DeviceIds(st))
  }

  predicate HasDevice(devices: seq<Device>, number: string) {
    exists i :: 0 <= i < |devices| && devices[i].deviceNumber == number
  }

  /** The positions of the devices carrying `number`. */
  function Matching(devices: seq<Device>, number: string): set<nat> {
    set i: nat | i < |devices| && devices[i].deviceNumber == number
  }

  /** The position of the first device carrying `number`: the document `Find(...).One` and `Upsert` pick. */
  function FirstMatch(devices: seq<Device>, number: string): (r: Option<nat>)
    ensures r.Some? <==> HasDevice(devices, number)
    ensures r.Some? ==> r.value < |devices| && devices[r.value].deviceNumber == number
    ensures r.Some? ==> forall j :: 0 <= j < r.value ==> devices[j].deviceNumber != number
    decreases |devices|
  {
    if |devices| == 0 then None
    else if devices[0].deviceNumber == number then Some(0)
    else
      var rest := FirstMatch(devices[1..], number);
      assert forall j :: 1 <= j < |devices| ==> devices[j] == devices[1..][j - 1];
      match rest
      case None => None
      case Some(i) => Some(i + 1)
  }

  /** GetDeviceByNumber: the first device with that number, or NotFound. */
  function GetDeviceByNumber(st: Store, number: string): (r: Result<Device, StoreError>)
    ensures r.Success? <==> HasDevice(st.devices, number)
    ensures r.Failure? ==> r.error == NotFound
    ensures r.Success? ==> exists i :: 0 <= i < |st.devices| && st.devices[i] == r.value
                            && r.value.deviceNumber == number
                            && forall j :: 0 <= j < i ==> st.devices[j].deviceNumber != number
  {
    match FirstMatch(st.devices, number)
    case Some(i) => Success(st.devices[i])
    case None => Failure(NotFound)
  }

  /**
   * RegisterDevice: an upsert keyed by device number that sets the register
   * date. A matching device keeps its identity and number; otherwise one
   * device with a fresh identity is appended.
   */
  function RegisterDevice(st: Store, number: string, date: Time): (r: Store)
    ensures r.errors == st.errors && r.cookies == st.cookies && r.users == st.users
    ensures |r.devices| == |st.devices| + (if HasDevice(st.devices, number) then 0 else 1)
    ensures forall j :: 0 <= j < |st.devices| ==>
              r.devices[j].id == st.devices[j].id && r.devices[j].deviceNumber == st.devices[j].deviceNumber
    ensures forall j :: 0 <= j < |st.devices| && r.devices[j] != st.devices[j] ==> FirstMatch(st.devices, number) == Some(j)
    ensures !HasDevice(st.devices, number) ==> r.devices[|st.devices|] == Device(st.nextId, number, date)
    ensures GetDeviceByNumber(r, number).Success? && GetDeviceByNumber(r, number).value.registerDate == date
  {
    match FirstMatch(st.devices, number)
    case Some(i) =>
      var updated := st.devices[i := st.devices[i].(registerDate := date)];
      assert forall j :: 0 <= j < i ==> updated[j] == st.devices[j];
      st.(devices := updated)
    case None =>
      st.(devices := st.devices + [Device(st.nextId, number, date)], nextId := st.nextId + 1)
  }

  /** Registering never creates a second device with the same number. */
  lemma RegisterDeviceKeepsNumberUnique(st: Store, number: string, date: Time)
    ensures var r := RegisterDevice(st, number, date);
      |Matching(r.devices, number)| == if HasDevice(st.devices, number) then |Matching(st.devices, number)| else 1
  {
    var r := RegisterDevice(st, number, date);
    if HasDevice(st.devices, number) {
      assert Matching(r.devices, number) == Matching(st.devices, number);
    } else {
      var n := |st.devices|;
      assert r.devices[n].deviceNumber == number;
      assert Matching(r.devices, number) == {n};
    }
  }

  /**
   * Registering the same number twice: the second call adds no device, and
   * on a store without that number exactly one such device results.
   */
  lemma RegisterTwice(st: Store, number: string, d1: Time, d2: Time)
    ensures var s1 := RegisterDevice(st, number, d1);
            var s2 := RegisterDevice(s1, number, d2);
      && |s2.devices| == |s1.devices|
      && s2.errors == st.errors && s2.cookies == st.cookies && s2.users == st.users
      && (!HasDevice(st.devices, number) ==> |Matching(s2.devices, number)| == 1)
  {
    var s1 := RegisterDevice(st, number, d1);
    RegisterDeviceKeepsNumberUnique(st, number, d1);
    RegisterDeviceKeepsNumberUnique(s1, number, d2);
  }

  /** The listing shape of a stored error. */
  function ToDto(e: DeviceError): DeviceErrorDto {
    DeviceErrorDto(e.errorName, e.deviceNumber)
  }

  /**
   * The `$lookup` of the listing: the errors whose `device_id` is `id`, in
   * store order, one entry per matching record.
   */
  function ErrorsOf(errors: seq<DeviceError>, id: ObjectId): (r: seq<DeviceErrorDto>)
    ensures |r| <= |errors|
    ensures forall x :: x in r <==> exists k :: 0 <= k < |errors| && errors[k].deviceId == id && ToDto(errors[k]) == x
    decreases |errors|
  {
    if |errors| == 0 then []
    else
      var head := if errors[0].deviceId == id then [ToDto(errors[0])] else [];
      var rest := ErrorsOf(errors[1..], id);
      assert forall k :: 1 <= k < |errors| ==> errors[k] == errors[1..][k - 1];
      head + rest
  }

  /** The positions of the error records that point at `id`. */
  function ErrorsFor(errors: seq<DeviceError>, id: ObjectId): set<nat> {
    set k: nat | k < |errors| && errors[k].deviceId == id
  }

  /** Appending an error record extends exactly the list of the device it points at, at the end. */
  lemma {:induction false} ErrorsOfAppend(errors: seq<DeviceError>, e: DeviceError, id: ObjectId)
    ensures ErrorsOf(errors + [e], id) == ErrorsOf(errors, id) + (if e.deviceId == id then [ToDto(e)] else [])
    decreases |errors|
  {
    if |errors| > 0 {
      assert (errors + [e])[1..] == errors[1..] + [e];
      ErrorsOfAppend(errors[1..], e, id);
    }
  }

  /** A device's joined list has one entry per error record pointing at it, repeats included. */
  lemma {:induction false} ErrorsOfCount(errors: seq<DeviceError>, id: ObjectId)
    ensures |ErrorsOf(errors, id)| == |ErrorsFor(errors, id)|
    decreases |errors|
  {
    if |errors| == 0 {
      assert ErrorsFor(errors, id) == {};
    } else {
      var init := errors[..|errors| - 1];
      var last := errors[|errors| - 1];
      assert errors == init + [last];
      ErrorsOfAppend(init, last, id);
      ErrorsOfCount(init, id);
      var n := |init|;
      assert n !in ErrorsFor(init, id);
      if last.deviceId == id {
        assert ErrorsFor(errors, id) == ErrorsFor(init, id) + {n};
      } else {
        assert ErrorsFor(errors, id) == ErrorsFor(init, id);
      }
    }
  }

  /** A device joined with its errors. */
  function Joined(st: Store, d: Device): DeviceDto {
    DeviceDto(d.deviceNumber, d.registerDate, ErrorsOf(st.errors, d.id))
  }

  /**
   * The longest `[]DeviceDto` that `make` accepts: Go's runtime refuses a
   * slice whose byte size exceeds its allocation ceiling (2^48 bytes on
   * linux/amd64 from Go 1.11 on), and a DeviceDto takes 64 bytes (a string header, a
   * time.Time and a slice header), so any longer length panics.
   */
  const MaxSliceLen: int := 0x400_0000_0000

  /**
   * GetAllDevices(skip, limit). The result slice is made with length
   * `limit`, which panics when `limit` is negative or longer than
   * MaxSliceLen; MongoDB rejects a `$limit` of 0 and a negative `$skip`.
   * The pipeline is `$lookup`, then `$limit`, then `$skip`, so the page
   * holds the joined devices at positions `skip` up to `min(limit, n)`.
   */
  function GetAllDevices(st: Store, skip: int, limit: int): (r: Result<seq<DeviceDto>, StoreError>)
    ensures (limit < 0 || limit > MaxSliceLen) ==> r == Failure(SlicePanic)
    ensures 0 <= limit <= MaxSliceLen ==> (r.Success? <==> limit > 0 && skip >= 0)
    ensures 0 <= limit <= MaxSliceLen && r.Failure? ==> r.error == PipelineRejected
    ensures r.Success? ==> |r.value| == Max(0, Min(limit, |st.devices|) - skip)
    ensures r.Success? ==> forall i :: 0 <= i < |r.value| ==> r.value[i] == Joined(st, st.devices[skip + i])
  {
    if limit < 0 || limit > MaxSliceLen then Failure(SlicePanic)
    else if limit == 0 || skip < 0 then Failure(PipelineRejected)
    else
      var joined := seq(|st.devices|, i requires 0 <= i < |st.devices| => Joined(st, st.devices[i]));
      var limited := joined[..Min(limit, |joined|)];
      var page := if skip < |limited| then limited[skip..] else [];
      Success(page)
  }

  /** The positions holding distinct identities, as a set of identities, has one member per position. */
  lemma {:induction false} DistinctIdsCount(ds: seq<Device>)
    requires forall i, j :: 0 <= i < j < |ds| ==> ds[i].id != ds[j].id
    ensures |set i | 0 <= i < |ds| :: ds[i].id| == |ds|
    decreases |ds|
  {
    if |ds| > 0 {
      var init := ds[..|ds| - 1];
      DistinctIdsCount(init);
      var last := ds[|ds| - 1].id;
      assert (set i | 0 <= i < |ds| :: ds[i].id) == (set i | 0 <= i < |init| :: init[i].id) + {last};
      assert last !in (set i | 0 <= i < |init| :: init[i].id);
    }
  }

  /**
   * GetDevicesCount: the number of device documents. In a valid store this
   * is the number of distinct devices, since identities never repeat.
   */
  function GetDevicesCount(st: Store): (n: int)
    ensures n >= 0 && n == |st.devices|
    ensures Valid(st) ==> n == |DeviceIds(st)|
  {
    if Valid(st) then DistinctIdsCount(st.devices); |st.devices|
    else |st.devices|
  }

  /** With a limit covering the collection, the first page is every device, so it is as long as the count. */
  lemma FullListingMatchesCount(st: Store, limit: int)
    requires limit >= GetDevicesCount(st) && 0 < limit <= MaxSliceLen
    ensures GetAllDevices(st, 0, limit).Success?
    ensures |GetAllDevices(st, 0, limit).value| == GetDevicesCount(st)
    ensures forall d :: d in st.devices ==> Joined(st, d) in GetAllDevices(st, 0, limit).value
  {
    var page := GetAllDevices(st, 0, limit).value;
    forall d | d in st.devices
      ensures Joined(st, d) in page
    {
      var i :| 0 <= i < |st.devices| && st.devices[i] == d;
      assert page[i] == Joined(st, d);
    }
  }

  /**
   * RegisterError: fails with NotFound when no device has the number;
   * otherwise appends one error stamped `now` and linked to the first
   * device with that number.
   */
  function RegisterError(st: Store, de: DeviceErrorDto, now: Time): (r: Result<Store, StoreError>)
    ensures r.Failure? <==> !HasDevice(st.devices, de.deviceNumber)
    ensures r.Failure? ==> r.error == NotFound
    ensures r.Success? ==> && r.value.devices == st.devices && r.value.cookies == st.cookies
                           && r.value.users == st.users && r.value.nextId == st.nextId
    ensures r.Success? ==> |r.value.errors| == |st.errors| + 1 && r.value.errors[..|st.errors|] == st.errors
    ensures r.Success? ==> var e := r.value.errors[|st.errors|];
              && e.errorName == de.errorName && e.deviceNumber == de.deviceNumber && e.date == now
              && e.deviceId == GetDeviceByNumber(st, de.deviceNumber).value.id
  {
    match GetDeviceByNumber(st, de.deviceNumber)
    case Failure(err) => Failure(err)
    case Success(device) =>
      var e := DeviceError(de.errorName, de.deviceNumber, now, device.id);
      Success(st.(errors := st.errors + [e]))
  }

  /**
   * After an error report succeeds, the listing shows the new error at the
   * end of its device's errors, and every other device's errors as before.
   */
  lemma RegisterErrorShowsInListing(st: Store, de: DeviceErrorDto, now: Time, d: Device)
    requires RegisterError(st, de, now).Success?
    ensures var owner := GetDeviceByNumber(st, de.deviceNumber).value;
            var st' := RegisterError(st, de, now).value;
      Joined(st', d).errors == Joined(st, d).errors + (if d.id == owner.id then [de] else [])
  {
    var owner := GetDeviceByNumber(st, de.deviceNumber).value;
    ErrorsOfAppend(st.errors, DeviceError(de.errorName, de.deviceNumber, now, owner.id), d.id);
  }

  /** GetCookieExp: the stored expiry for a login, or NotFound. */
  function GetCookieExp(st: Store, login: string): (r: Result<Time, StoreError>)
    ensures r.Success? <==> login in st.cookies
    ensures r.Failure? ==> r.error == NotFound
  {
    if login in st.cookies then Success(st.cookies[login]) else Failure(NotFound)
  }

  /** SetCookieExp: an upsert keyed by login; only that login's expiry changes. */
  function SetCookieExp(st: Store, login: string, expire: Time): (r: Store)
    ensures GetCookieExp(r, login) == Success(expire)
    ensures forall l :: l != login ==> GetCookieExp(r, l) == GetCookieExp(st, l)
    ensures r.devices == st.devices && r.errors == st.errors && r.users == st.users && r.nextId == st.nextId
  {
    st.(cookies := st.cookies[login := expire])
  }

  /** GetCreds: the credentials stored for a login, or NotFound. */
  function GetCreds(st: Store, login: string): (r: Result<Credentials, StoreError>)
    ensures r.Success? <==> login in st.users
    ensures r.Success? ==> r.value.login == login
    ensures r.Failure? ==> r.error == NotFound
  {
    if login in st.users then Success(Credentials(login, st.users[login])) else Failure(NotFound)
  }

  /** SetCreds: an upsert keyed by login; only that login's password hash changes. */
  function SetCreds(st: Store, creds: Credentials): (r: Store)
    ensures GetCreds(r, creds.login) == Success(creds)
    ensures forall l :: l != creds.login ==> GetCreds(r, l) == GetCreds(st, l)
    ensures r.devices == st.devices && r.errors == st.errors && r.cookies == st.cookies && r.nextId == st.nextId
  {
    st.(users := st.users[creds.login := creds.password])
  }

  /** Registering a device keeps identities fresh and distinct and leaves no orphan error. */
  lemma RegisterDevicePreservesValid(st: Store, number: string, date: Time)
    requires Valid(st)
    ensures Valid(RegisterDevice(st, number, date))
  {
  }

  /** A successful error report points at a stored device, so no orphan error appears. */
  lemma RegisterErrorPreservesValid(st: Store, de: DeviceErrorDto, now: Time)
    requires Valid(st)
    ensures RegisterError(st, de, now).Success? ==> Valid(RegisterError(st, de, now).value)
  {
  }
}

=== FILE: outcomes.dfy ===
/** Failure-carrying values shared by every module of the model. */
module Outcomes {

  /** A value that may be absent: a missing header, cookie or map entry. */
  datatype Option<+T> = None | Some(value: T) {

    /** The value, or `default` when absent. */
    function GetOr(default: T): T {
      match this
      case Some(v) => v
      case None => default
    }
  }

  /** The outcome of a store call: a value, or the error the driver reports. */
  datatype Result<+T, +E> = Success(value: T) | Failure(error: E)

  function Min(a: int, b: int): int { if a <= b then a else b }

  function Max(a: int, b: int): int { if a >= b then a else b }
}

=== FILE: scenarios.dfy ===
/**
 * Requests in sequence: a login followed by web requests, sharing the one
 * process-wide codec.
 */
module Scenarios {
  import opened Outcomes
  import opened Model
  import opened SecureCookie
  import opened MongoService
  import opened Gin
  import opened Server
  import opened Web
  import opened Login

  /**
   * A cookie issued by login passes the web gate while both its stored
   * expiry and the codec's maximum age allow, and the gate refreshes the
   * stored expiry.
   */
  lemma LoginCookiePassesGate(cfg: Config, hash: string -> string, crds: Credentials, st: Store, now: Time, later: Time)
    requires Authentic(st, hash, crds)
    requires now <= later <= ExpiresAt(cfg, now) && later - now <= MaxAge
    ensures var s := LoginHandler(cfg, hash, Parsed(crds), st, now);
            var session := Some(s.resp.cookies[0].value);
            var gate := CheckSession(cfg, session, s.store, later);
      && SessionLogin(cfg, session, later) == Some(crds.login)
      && !gate.resp.aborted
      && gate.store == SetCookieExp(s.store, crds.login, ExpiresAt(cfg, later))
  {
  }

  /**
   * After the gate refreshes a session, the refreshed cookie no longer
   * names the login: the next request reads login "", and unless "" has a
   * stored expiry it ends in a 500.
   */
  lemma RefreshedCookieFailsNextRequest(cfg: Config, session: Option<Token>, st: Store, now: Time, later: Time)
    requires Live(cfg, session, st, now)
    requires now <= later && later - now <= MaxAge
    requires "" !in st.cookies && SessionLogin(cfg, session, now) != Some("")
    ensures var gate := CheckSession(cfg, session, st, now);
            var next := CheckSession(cfg, Some(gate.resp.cookies[0].value), gate.store, later);
      && SessionLogin(cfg, Some(gate.resp.cookies[0].value), later) == Some("")
      && StatusCode(next.resp) == StatusInternalServerError && next.resp.aborted
  {
  }

  /**
   * A process restart draws new keys: every cookie the old process would
   * have accepted, whether issued at login or by a refresh, is refused with
   * 401 and the store is left alone.
   */
  lemma RestartRefusesOldCookies(cfg: Config, keys: KeyPair, token: Token, issued: Time, st: Store, later: Time)
    requires Decode(cfg.keys, SessionCookie, token, issued).Success? && keys != cfg.keys
    ensures CheckSession(cfg.(keys := keys), Some(token), st, later) == Served(PleaseAuth(Blank), st)
  {
  }

  /** In particular, a login cookie does not survive a restart. */
  lemma RestartRefusesLoginCookie(cfg: Config, keys: KeyPair, hash: string -> string, crds: Credentials, st: Store, now: Time, later: Time)
    requires Authentic(st, hash, crds) && keys != cfg.keys
    ensures var s := LoginHandler(cfg, hash, Parsed(crds), st, now);
            CheckSession(cfg.(keys := keys), Some(s.resp.cookies[0].value), s.store, later) == Served(PleaseAuth(Blank), s.store)
  {
    var s := LoginHandler(cfg, hash, Parsed(crds), st, now);
    RestartRefusesOldCookies(cfg, keys, s.resp.cookies[0].value, now, s.store, later);
  }
}

=== FILE: securecookie.dfy ===
/**
 * The signed-cookie codec (gorilla/securecookie) as a symbolic codec. The
 * process builds one codec from a random hash key and a random block key;
 * a value it encodes can be decoded only by a codec with the same key pair,
 * under the same cookie name, and only while the timestamp sealed into it
 * is at most `MaxAge` seconds old. The encryption and MAC themselves are not
 * modelled: a sealed token simply records what was sealed, by which keys
 * and when.
 */
module SecureCookie {
  import opened Outcomes

  /** securecookie's default maximum age: 30 days, in seconds. */
  const MaxAge: int := 86400 * 30

  /** The two random keys drawn once at process start. */
  datatype KeyPair = KeyPair(hashKey: nat, blockKey: nat)

  /** A cookie value: one this codec family sealed, or any other string a client sends. */
  datatype Token =
    | Sealed(keys: KeyPair, name: string, value: map<string, string>, timestamp: int)
    | Foreign(raw: string)

  datatype DecodeError = ErrMacInvalid | ErrTimestampExpired

  /**
   * `Encode(name, value)` at clock time `now`: a token that the same codec
   * decodes, under the same name, back to `value` for `MaxAge` seconds and
   * never afterwards.
   */
  function Encode(keys: KeyPair, name: string, value: map<string, string>, now: int): (r: Token)
    ensures forall t :: Decode(keys, name, r, t).Success? <==> t - now <= MaxAge
    ensures forall t :: t - now <= MaxAge ==> Decode(keys, name, r, t) == Success(value)
  {
    Sealed(keys, name, value, now)
  }

  /**
   * `Decode(name, token, &dst)` into a fresh map at clock time `now`. Only
   * tokens sealed by the same key pair under the same name authenticate;
   * an authentic token is then rejected if older than `MaxAge`.
   */
  function Decode(keys: KeyPair, name: string, token: Token, now: int): (r: Result<map<string, string>, DecodeError>)
    ensures r.Success? <==> token.Sealed? && token.keys == keys && token.name == name && now - token.timestamp <= MaxAge
    ensures r.Success? ==> r.value == token.value
  {
    match token
    case Foreign(_) => Failure(ErrMacInvalid)
    case Sealed(k, n, v, t) =>
      if k != keys || n != name then Failure(ErrMacInvalid)
      else if t < now - MaxAge then Failure(ErrTimestampExpired)
      else Success(v)
  }

  /** Decoding what the same codec encoded returns the same map, for `MaxAge` seconds. */
  lemma RoundTrip(keys: KeyPair, name: string, value: map<string, string>, issued: int, now: int)
    ensures Decode(keys, name, Encode(keys, name, value, issued), now).Success? <==> now - issued <= MaxAge
    ensures now - issued <= MaxAge ==> Decode(keys, name, Encode(keys, name, value, issued), now) == Success(value)
  {
  }

  /** A token sealed by one key pair never decodes under another. */
  lemma KeyScoping(keys: KeyPair, other: KeyPair, name: string, value: map<string, string>, issued: int, now: int)
    requires other != keys
    ensures Decode(other, name, Encode(keys, name, value, issued), now) == Failure(ErrMacInvalid)
  {
  }

  /** A token sealed under one cookie name never decodes under another. */
  lemma NameScoping(keys: KeyPair, name: string, otherName: string, value: map<string, string>, issued: int, now: int)
    requires otherName != name
    ensures Decode(keys, otherName, Encode(keys, name, value, issued), now) == Failure(ErrMacInvalid)
  {
  }
}

=== FILE: server.dfy ===
/**
 * What the handlers share: the server configuration, the one process-wide
 * cookie codec, and the session issuance that login and the web gate both
 * perform.
 */
module Server {
  import opened Outcomes
  import opened Model
  import opened SecureCookie
  import opened MongoService
  import opened Gin
  import Strconv

  const SessionCookie := "session"

  /**
   * The API key, the session lifetime in hours, and the key pair of the
   * single cookie codec built once at start-up and shared by every handler.
   */
  datatype Config = Config(apiKey: string, expiration: int, keys: KeyPair)

  /** What a request leaves behind: the response and the store. */
  datatype Served = Served(resp: Response, store: Store)

  const NanosPerSecond: int := 1_000_000_000

  /** `time.Hour`: a Duration counts nanoseconds. */
  const NanosPerHour: int := 3600 * NanosPerSecond

  /** Go's int64 arithmetic: the two's-complement wrap of the exact result. */
  function WrapInt64(x: int): (w: int)
    ensures Strconv.MinInt64 <= w <= Strconv.MaxInt64
    ensures Strconv.MinInt64 <= x <= Strconv.MaxInt64 ==> w == x
  {
    (x - Strconv.MinInt64) % 0x1_0000_0000_0000_0000 + Strconv.MinInt64
  }

  /**
   * `time.Now().Add(time.Duration(expiration) * time.Hour)` on a clock of
   * whole seconds. The product is taken in int64 nanoseconds and wraps
   * above 2562047 hours; Add then moves the clock by the duration rounded
   * down to whole seconds, which is Dafny's `/` by a positive divisor.
   */
  function ExpiresAt(cfg: Config, now: Time): (t: Time)
    ensures Strconv.MinInt64 <= cfg.expiration * NanosPerHour <= Strconv.MaxInt64 ==> t == now + cfg.expiration * 3600
    ensures now - 9_223_372_037 <= t <= now + 9_223_372_036
  {
    now + WrapInt64(cfg.expiration * NanosPerHour) / NanosPerSecond
  }

  /** One hour past the int64 range, the product wraps negative and the session expires about 292 years ago. */
  lemma HourOverflowExpiresInPast(cfg: Config, now: Time)
    requires cfg.expiration == 2562048
    ensures ExpiresAt(cfg, now) == now - 9_223_371_274
    ensures ExpiresAt(cfg, now) < now
  {
  }

  /** Go's map index: a missing key reads as the empty string. */
  function Lookup(m: map<string, string>, key: string): string {
    if key in m then m[key] else ""
  }

  /**
   * setSession: encodes `{field: login}` into a `session` cookie with path
   * `/` expiring `expiration` hours from now, writes that instant as the
   * login's stored expiry, and sets the cookie. login.go stores the login
   * under `"login"`, web.go under `"name"`.
   */
  function SetSession(cfg: Config, field: string, login: string, r: Response, st: Store, now: Time): (s: Served)
    ensures GetCookieExp(s.store, login) == Success(ExpiresAt(cfg, now))
    ensures forall l :: l != login ==> GetCookieExp(s.store, l) == GetCookieExp(st, l)
    ensures s.store.devices == st.devices && s.store.errors == st.errors && s.store.users == st.users
    ensures s.store.nextId == st.nextId
    ensures s.resp.status == r.status && s.resp.bodies == r.bodies && s.resp.aborted == r.aborted
    ensures r.status.Some? ==> s.resp.cookies == r.cookies
    ensures r.status.None? ==> |s.resp.cookies| == |r.cookies| + 1 && s.resp.cookies[..|r.cookies|] == r.cookies
    ensures r.status.None? ==> var c := s.resp.cookies[|r.cookies|];
              && c.name == SessionCookie && c.path == "/" && c.expires == ExpiresAt(cfg, now)
              && Decode(cfg.keys, SessionCookie, c.value, now) == Success(map[field := login])
  {
    var encoded := Encode(cfg.keys, SessionCookie, map[field := login], now);
    var cookie := HttpCookie(SessionCookie, encoded, "/", ExpiresAt(cfg, now));
    Served(SetCookie(r, cookie), SetCookieExp(st, login, cookie.expires))
  }

  /**
   * pleaseAuth: writes 401 `{"error": "Access denied"}` and aborts the
   * chain. The status only takes effect if nothing was written before.
   */
  function PleaseAuth(r: Response): (r': Response)
    ensures r'.aborted
    ensures StatusCode(r') == (if r.status.None? then StatusUnauthorized else StatusCode(r))
    ensures r'.bodies == r.bodies + [Error("Access denied")] && r'.cookies == r.cookies
  {
    Abort(Write(r, StatusUnauthorized, Error("Access denied")))
  }

  /**
   * internalError: writes 500 `{"error": msg}` and aborts the chain. The
   * status only takes effect if nothing was written before.
   */
  function InternalError(r: Response, msg: string): (r': Response)
    ensures r'.aborted
    ensures StatusCode(r') == (if r.status.None? then StatusInternalServerError else StatusCode(r))
    ensures r'.bodies == r.bodies + [Error(msg)] && r'.cookies == r.cookies
  {
    Abort(Write(r, StatusInternalServerError, Error(msg)))
  }
}

=== FILE: strconv.dfy ===
/**
 * Go's `strconv.Atoi` on a 64-bit platform, which the device listing uses
 * to read its `skip` and `limit` path parameters. Atoi always returns a
 * value next to its error: 0 on a syntax error and the clamped bound of
 * `int64` on a range error.
 */
module Strconv {
  import opened Outcomes

  const MaxInt64: int := 0x7fff_ffff_ffff_ffff
  const MinInt64: int := -0x8000_0000_0000_0000
  const MaxUint64: int := 0xffff_ffff_ffff_ffff

  datatype NumErrorKind = ErrSyntax | ErrRange

  /** The pair `(value, err)` that Atoi returns. */
  datatype IntParse = IntParse(value: int, err: Option<NumErrorKind>)

  predicate IsDigit(c: char) { '0' <= c <= '9' }

  predicate AllDigits(s: string) { forall i :: 0 <= i < |s| ==> IsDigit(s[i]) }

  function Pow10(k: nat): nat { if k == 0 then 1 else 10 * Pow10(k - 1) }

  /** The decimal value of a string of digits, most significant first. */
  function DigitsValue(s: string): nat
    requires AllDigits(s)
    decreases |s|
  {
    if |s| == 0 then 0 else (s[0] as int - '0' as int) * Pow10(|s| - 1) + DigitsValue(s[1..])
  }

  /** `s` without its leading sign, if it has one. */
  function Unsigned(s: string): string
    requires |s| > 0
  {
    if s[0] == '+' || s[0] == '-' then s[1..] else s
  }

  /** A well-formed decimal integer: an optional sign, then at least one digit. */
  predicate Numeral(s: string) {
    |s| > 0 && |Unsigned(s)| > 0 && AllDigits(Unsigned(s))
  }

  /** The mathematical value a numeral denotes, with no width limit. */
  function NumeralValue(s: string): int
    requires Numeral(s)
  {
    var v: int := DigitsValue(Unsigned(s));
    if s[0] == '-' then -v else v
  }

  /** The state of ParseUint's left-to-right scan. */
  datatype Scan = Value(n: nat) | Syntax | Overflow

  /**
   * ParseUint's digit loop in base 10 for a 64-bit result: it stops at the
   * first character that is not a digit (syntax error) or at the first
   * digit that takes the accumulator past 2^64-1 (range error), whichever
   * comes first.
   */
  function ScanDigits(s: string, acc: nat): Scan
    requires acc <= MaxUint64
    decreases |s|
  {
    if |s| == 0 then Value(acc)
    else if !IsDigit(s[0]) then Syntax
    else
      var next := acc * 10 + (s[0] as int - '0' as int);
      if next > MaxUint64 then Overflow else ScanDigits(s[1..], next)
  }

  /**
   * strconv.Atoi: an empty string or a lone sign is a syntax error; a range
   * error clamps to the bound on the side of the sign.
   */
  function Atoi(s: string): (r: IntParse)
    ensures r.err.None? <==> Numeral(s) && MinInt64 <= NumeralValue(s) <= MaxInt64
    ensures r.err.None? ==> r.value == NumeralValue(s)
    ensures r.err == Some(ErrSyntax) ==> r.value == 0 && !Numeral(s)
    ensures r.err == Some(ErrRange) ==> |s| > 0 && r.value == (if s[0] == '-' then MinInt64 else MaxInt64)
    ensures Numeral(s) && !(MinInt64 <= NumeralValue(s) <= MaxInt64) ==> r.err == Some(ErrRange)
  {
    if |s| == 0 then IntParse(0, Some(ErrSyntax))
    else
      var neg := s[0] == '-';
      var digits := Unsigned(s);
      var scan := if |digits| == 0 then Syntax else ScanDigits(digits, 0);
      AtoiScanMeaning(s);
      match scan
      case Syntax => IntParse(0, Some(ErrSyntax))
      case Overflow => IntParse(if neg then MinInt64 else MaxInt64, Some(ErrRange))
      case Value(n) =>
        if !neg && n > MaxInt64 then IntParse(MaxInt64, Some(ErrRange))
        else if neg && n > -MinInt64 then IntParse(MinInt64, Some(ErrRange))
        else IntParse(if neg then -(n as int) else n, None)
  }

  /** Relates the scan of `s`'s digits to the numeral it denotes. */
  lemma AtoiScanMeaning(s: string)
    requires |s| > 0
    ensures |Unsigned(s)| > 0 ==> var scan := ScanDigits(Unsigned(s), 0);
      && (scan.Value? ==> Numeral(s) && scan.n == DigitsValue(Unsigned(s)))
      && (Numeral(s) && DigitsValue(Unsigned(s)) <= MaxUint64 ==> scan.Value?)
      && (Numeral(s) && DigitsValue(Unsigned(s)) > MaxUint64 ==> scan.Overflow?)
  {
    var d := Unsigned(s);
    if |d| > 0 {
      if ScanDigits(d, 0).Value? {
        ScanValueAllDigits(d, 0);
        if DigitsValue(d) <= MaxUint64 {
          ScanComputesValue(d, 0);
        } else {
          ScanOverflows(d, 0);
        }
      }
      if AllDigits(d) {
        if DigitsValue(d) <= MaxUint64 {
          ScanComputesValue(d, 0);
        } else {
          ScanOverflows(d, 0);
        }
      }
    }
  }

  lemma {:induction false} Pow10Positive(k: nat)
    ensures Pow10(k) >= 1
  {
    if k > 0 {
      Pow10Positive(k - 1);
    }
  }

  /** A scan that ends with a value saw only digits. */
  lemma {:induction false} ScanValueAllDigits(s: string, acc: nat)
    requires acc <= MaxUint64
    requires ScanDigits(s, acc).Value?
    ensures AllDigits(s)
    decreases |s|
  {
    if |s| > 0 {
      var next := acc * 10 + (s[0] as int - '0' as int);
      ScanValueAllDigits(s[1..], next);
      assert forall i :: 1 <= i < |s| ==> s[i] == s[1..][i - 1];
    }
  }

  /** One step of the scan: the accumulator absorbs the leading digit. */
  lemma ShiftStep(acc: int, d: int, p: int, rest: int)
    ensures acc * (10 * p) + d * p + rest == (acc * 10 + d) * p + rest
  {
    assert acc * (10 * p) == (acc * 10) * p;
    assert (acc * 10) * p + d * p == (acc * 10 + d) * p;
  }

  lemma NoLargerThanMultiple(a: nat, p: nat)
    requires p >= 1
    ensures a <= a * p
  {
  }

  /** Peels the leading digit off a digit string. */
  lemma PeelDigit(s: string)
    requires |s| > 0 && AllDigits(s)
    ensures AllDigits(s[1..])
    ensures Pow10(|s|) == 10 * Pow10(|s| - 1)
    ensures DigitsValue(s) == (s[0] as int - '0' as int) * Pow10(|s| - 1) + DigitsValue(s[1..])
  {
    assert forall i :: 0 <= i < |s| - 1 ==> s[1..][i] == s[i + 1];
  }

  /** Over digits whose value fits in 64 bits, the scan computes that value. */
  lemma {:induction false} ScanComputesValue(s: string, acc: nat)
    requires acc <= MaxUint64 && AllDigits(s)
    requires acc * Pow10(|s|) + DigitsValue(s) <= MaxUint64
    ensures ScanDigits(s, acc) == Value(acc * Pow10(|s|) + DigitsValue(s))
    decreases |s|
  {
    if |s| > 0 {
      var t := s[1..];
      PeelDigit(s);
      var d := s[0] as int - '0' as int;
      var p := Pow10(|t|);
      var next := acc * 10 + d;
      ShiftStep(acc, d, p, DigitsValue(t));
      assert acc * Pow10(|s|) + DigitsValue(s) == next * p + DigitsValue(t);
      Pow10Positive(|t|);
      NoLargerThanMultiple(next, p);
      assert next <= MaxUint64;
      assert ScanDigits(s, acc) == ScanDigits(t, next);
      ScanComputesValue(t, next);
    }
  }

  /** Over digits whose value exceeds 64 bits, the scan reports a range error. */
  lemma {:induction false} ScanOverflows(s: string, acc: nat)
    requires acc <= MaxUint64 && AllDigits(s)
    requires acc * Pow10(|s|) + DigitsValue(s) > MaxUint64
    ensures ScanDigits(s, acc) == Overflow
    decreases |s|
  {
    if |s| > 0 {
      var t := s[1..];
      PeelDigit(s);
      var d := s[0] as int - '0' as int;
      var p := Pow10(|t|);
      var next := acc * 10 + d;
      if next <= MaxUint64 {
        ShiftStep(acc, d, p, DigitsValue(t));
        assert acc * Pow10(|s|) + DigitsValue(s) == next * p + DigitsValue(t);
        ScanOverflows(t, next);
      }
    }
  }
}

=== FILE: web.dfy ===
/**
 * The operator web view of server/web.go: the session-cookie gate and the
 * paginated device listing.
 */
module Web {
  import opened Outcomes
  import opened Model
  import opened Strconv
  import opened SecureCookie
  import opened MongoService
  import opened Gin
  import opened Server

  /** `GET /web/list/:skip/:limit`: the `session` cookie, if any, and the two path segments. */
  datatype WebRequest = WebRequest(session: Option<Token>, skip: string, limit: string)

  /**
   * The login a request's session cookie names: `None` when there is no
   * cookie or it does not decode, else the map's `"login"` entry, or "" when
   * the map has none.
   */
  function SessionLogin(cfg: Config, session: Option<Token>, now: Time): Option<string> {
    match session
    case None => None
    case Some(token) =>
      match Decode(cfg.keys, SessionCookie, token, now)
      case Failure(_) => None
      case Success(values) => Some(Lookup(values, "login"))
  }

  /**
   * checkSession. No cookie or an undecodable one: 401. A login without a
   * stored expiry: 500, then the nil expiry is dereferenced and gin
   * recovers. Otherwise an expiry before `now` is answered 401, yet the
   * session is refreshed all the same; an unexpired one continues the
   * chain carrying a refreshed cookie.
   */
  function CheckSession(cfg: Config, session: Option<Token>, st: Store, now: Time): (s: Served)
    ensures SessionLogin(cfg, session, now).None? ==> s == Served(PleaseAuth(Blank), st)
    ensures SessionLogin(cfg, session, now).Some? && SessionLogin(cfg, session, now).value !in st.cookies ==>
              && StatusCode(s.resp) == StatusInternalServerError && s.resp.aborted && s.store == st
    ensures SessionLogin(cfg, session, now).Some? && SessionLogin(cfg, session, now).value in st.cookies ==>
              s.store == SetCookieExp(st, SessionLogin(cfg, session, now).value, ExpiresAt(cfg, now))
    ensures !s.resp.aborted <==> Live(cfg, session, st, now)
    ensures s.resp.aborted && SessionLogin(cfg, session, now).Some? && SessionLogin(cfg, session, now).value in st.cookies ==>
              StatusCode(s.resp) == StatusUnauthorized && s.resp.cookies == []
    ensures !s.resp.aborted ==>
              && s.resp.status.None? && s.resp.bodies == [] && |s.resp.cookies| == 1
              && s.resp.cookies[0].expires == ExpiresAt(cfg, now) && s.resp.cookies[0].path == "/"
              && Decode(cfg.keys, SessionCookie, s.resp.cookies[0].value, now)
                 == Success(map["name" := SessionLogin(cfg, session, now).value])
  {
    match SessionLogin(cfg, session, now)
    case None => Served(PleaseAuth(Blank), st)
    case Some(login) =>
      match GetCookieExp(st, login)
      case Failure(_) => Served(Recover(InternalError(Blank, "databse error")), st)
      case Success(expire) =>
        var r := if expire < now then PleaseAuth(Blank) else Blank;
        SetSession(cfg, "name", login, r, st, now)
  }

  /** A session the gate lets through: it decodes, and its login's stored expiry is not before `now`. */
  predicate Live(cfg: Config, session: Option<Token>, st: Store, now: Time) {
    && SessionLogin(cfg, session, now).Some?
    && SessionLogin(cfg, session, now).value in st.cookies
    && st.cookies[SessionLogin(cfg, session, now).value] >= now
  }

  /**
   * getDevices. The error of the `skip` parse is overwritten by the `limit`
   * parse, so only a bad `limit` is answered 400, and a bad `skip` is used
   * as whatever Atoi returned with its error. The handler then carries on:
   * it counts, lists, and writes the listing.
   */
  function GetDevices(r: Response, skipParam: string, limitParam: string, st: Store): (r': Response)
    ensures r.status.None? ==> (StatusCode(r') == StatusBadRequest <==> Atoi(limitParam).err.Some?)
    ensures r.status.None? && Atoi(limitParam).err.Some? ==>
              r'.aborted && |r'.bodies| > |r.bodies| && r'.bodies[|r.bodies|] == NumError(limitParam, Atoi(limitParam).err.value)
    ensures r'.cookies == r.cookies
    ensures ListingServed(r, skipParam, limitParam, st, r')
  {
    var skip := Atoi(skipParam).value;
    var limit := Atoi(limitParam);
    var r1 := if limit.err.Some? then Abort(Write(r, StatusBadRequest, NumError(limitParam, limit.err.value))) else r;
    var total := GetDevicesCount(st);
    match GetAllDevices(st, skip, limit.value)
    case Failure(SlicePanic) => Recover(r1)
    case Failure(_) => Write(InternalError(r1, "databse error"), StatusOK, DeviceList(Devices(None, total)))
    case Success(devices) => Write(r1, StatusOK, DeviceList(Devices(Some(devices), total)))
  }

  /**
   * The listing branch of getDevices, for a context with nothing written:
   * a page the store produced is sent as 200 with the device count as
   * total; a rejected pipeline is a 500 followed by a `null` device list;
   * a negative limit, or one too long for `make`, panics into a 500.
   */
  predicate ListingServed(r: Response, skipParam: string, limitParam: string, st: Store, r': Response) {
    var skip := Atoi(skipParam).value;
    var limit := Atoi(limitParam);
    var listing := GetAllDevices(st, skip, limit.value);
    r.status.None? && limit.err.None? ==>
      match listing
      case Success(page) =>
        && StatusCode(r') == StatusOK && r'.aborted == r.aborted
        && r'.bodies == r.bodies + [DeviceList(Devices(Some(page), |st.devices|))]
      case Failure(SlicePanic) =>
        StatusCode(r') == StatusInternalServerError && r'.aborted && r'.bodies == r.bodies
      case Failure(_) =>
        && StatusCode(r') == StatusInternalServerError && r'.aborted
        && r'.bodies == r.bodies + [Error("databse error"), DeviceList(Devices(None, |st.devices|))]
  }

  /** `GET /web/list/:skip/:limit` behind the session gate. */
  function ServeList(cfg: Config, req: WebRequest, st: Store, now: Time): (s: Served)
    ensures !Live(cfg, req.session, st, now) ==> s == CheckSession(cfg, req.session, st, now)
    ensures Live(cfg, req.session, st, now) ==>
              var gate := CheckSession(cfg, req.session, st, now);
              s == Served(GetDevices(gate.resp, req.skip, req.limit, gate.store), gate.store)
  {
    var gate := CheckSession(cfg, req.session, st, now);
    if gate.resp.aborted then gate else Served(GetDevices(gate.resp, req.skip, req.limit, gate.store), gate.store)
  }

  /**
   * A `skip` that Atoi rejects with a syntax error is read as 0: the
   * listing is the one for skip "0". (Digits that overflow before any
   * non-digit give a range error instead, and the clamped bound.)
   */
  lemma SkipSyntaxErrorReadsAsZero(r: Response, skipParam: string, limitParam: string, st: Store)
    requires Atoi(skipParam).err == Some(ErrSyntax)
    ensures GetDevices(r, skipParam, limitParam, st) == GetDevices(r, "0", limitParam, st)
  {
  }

  /** The refreshed cookie stores the login under "name", so the gate reads its login as "". */
  lemma RefreshedCookieReadsEmptyLogin(cfg: Config, login: string, st: Store, now: Time, later: Time)
    requires later - now <= MaxAge
    ensures var s := SetSession(cfg, "name", login, Blank, st, now);
      SessionLogin(cfg, Some(s.resp.cookies[0].value), later) == Some("")
  {
  }

  /** `/list/0/10` over two devices without errors: 200, both devices with empty error lists, total 2. */
  lemma ListTwoDevices(d1: Device, d2: Device, st: Store)
    requires st.devices == [d1, d2] && st.errors == []
    ensures var r := GetDevices(Blank, "0", "10", st);
      && StatusCode(r) == StatusOK
      && r.bodies == [DeviceList(Devices(Some([
           DeviceDto(d1.deviceNumber, d1.registerDate, []),
           DeviceDto(d2.deviceNumber, d2.registerDate, [])]), 2))]
  {
    assert Atoi("0") == IntParse(0, None) by {
      assert Unsigned("0") == "0";
      assert DigitsValue("0") == 0 * Pow10(0) + DigitsValue("0"[1..]);
    }
    assert Atoi("10") == IntParse(10, None) by {
      assert Unsigned("10") == "10" && "10"[1..] == "0";
      assert DigitsValue("0") == 0 * Pow10(0) + DigitsValue("0"[1..]);
      assert DigitsValue("10") == 1 * Pow10(1) + DigitsValue("0");
    }
    var page := GetAllDevices(st, 0, 10).value;
    assert |page| == 2;
    assert page[0] == Joined(st, d1) && page[1] == Joined(st, d2);
    assert page == [DeviceDto(d1.deviceNumber, d1.registerDate, []), DeviceDto(d2.deviceNumber, d2.registerDate, [])];
  }
}
